=== FILE: README.md ===
# FYX storefront state transitions in Dafny

FYX is a browser storefront with an admin console. All of its state sits in
one top-level component, `App.tsx`. Its handlers are written as state
setters, but each one maps the old state to the new one. This project
models those handlers as pure functions over an immutable `StoreState`
record and proves what they promise:

- the derived cart figures (`cartTotal`, `cartCount`);
- adding a line to the bag and removing one by position;
- the wishlist heart toggle;
- the product-detail defaults and the quantity picker;
- the three-step checkout page and the order commit (`finalCheckout`);
- the admin product save (insert or replace by id);
- adding and deleting categories;
- the storefront's category and search filter (`filteredProducts`).

Modules, leaves first:

- `Types` (types.dfy): products, options, cart lines, orders, the address, and the opaque `Stamp` (random ids and formatted date and time).
- `Seqs` (seqs.dfy): `Array.filter` by predicate and by position, with subsequence and no-duplicate facts.
- `Text` (text.dfy): `toLowerCase` and `includes`.
- `Cart` (cart.dfy): the cart figures and the line add and remove.
- `Wishlist` (wishlist.dfy): the heart toggle.
- `ProductDetail` (detail.dfy): the option defaults and the quantity buttons.
- `Catalog` (catalog.dfy): product save, category add and delete, and the storefront filter.
- `Checkout` (checkout.dfy): the step buttons and the order record.
- `Store` (store.dfy): the state, one function per handler, the `Action` dispatcher `Apply`, and the invariant `Inv`, which every action preserves.

A reader might expect a storefront like this one to have some of the
following behaviour. This code does not, and neither does the model:

- No user accounts exist in this code, so adding to the bag and hearting a product need no sign-in.
- A checkout form might be expected to validate its fields, but step 1 advances without checking the name or phone.
- The steps are shipping, payment and confirm, with the order review shown on step 3 and no separate review step.
- Payments are recorded only as a method name, and no proof of payment is asked for before the order is placed.
- Customers are not tracked, so placing an order updates no per-customer spend.

## Model

| member | source | states |
|---|---|---|
| Cart.CartTotal | App.tsx:164 | the one-pass total equals the sum of price times quantity over every line, and is 0 for an empty cart |
| Cart.CartCount | App.tsx:165 | the one-pass count equals the sum of the line quantities, and is 0 for an empty cart |
| Cart.SumSubtotalsConcat | App.tsx:164 | the total of two carts laid end to end is the sum of their totals |
| Cart.SumQuantitiesConcat | App.tsx:165 | the piece count of two carts laid end to end is the sum of their counts |
| Cart.CountAtLeastLines | App.tsx:165 | when every line has quantity at least 1, the count is at least the number of lines, so a non-empty cart has a positive count |
| Cart.AddLine | App.tsx:225 | appending keeps every earlier line at its place and puts the new line last |
| Cart.RemoveLine | App.tsx:1177 | an index inside the cart drops exactly that line and keeps the others in order; an index outside changes nothing |
| Cart.AddLineFigures | App.tsx:225 | appending a line raises the total by its subtotal and the count by its quantity |
| Cart.RemoveLineFigures | App.tsx:1177 | removing line i lowers the total by that line's subtotal and the count by its quantity |
| Cart.AddLineKeepsQuantities | App.tsx:225 | appending a line of quantity at least 1 keeps every quantity at least 1 |
| Cart.RemoveLineKeepsQuantities | App.tsx:1177 | removing a line keeps every quantity at least 1 |
| Seqs.Filter | App.tsx:234 | the result keeps exactly the elements passing the predicate, with their multiplicities, as an in-order subsequence; it is shorter when some element fails |
| Seqs.DropIndex | App.tsx:1177 | the index walk of `filter((_, i) => i !== idx)` equals the slice with position idx cut out, or the whole list when idx is outside it |
| Seqs.SubseqTrans | App.tsx:168-177 | a subsequence of a subsequence is a subsequence, which makes the two chained filters order-preserving |
| Seqs.FilterKeepsNoDups | App.tsx:234 | filtering a list without repeats gives a list without repeats |
| Seqs.FilterConcat | App.tsx:234 | filtering distributes over concatenation |
| Text.Lower | App.tsx:174 | lower-casing keeps the length, turns each capital A-Z into the letter at the same place of the lower-case alphabet, leaves no capital and keeps every other character |
| Text.LowerIdempotent | App.tsx:174 | lower-casing twice equals lower-casing once |
| Text.ContainsIff | App.tsx:174 | `includes` holds exactly when some window of the text equals the searched string |
| Wishlist.Toggle | App.tsx:230-236 | the id becomes wished iff it was not; every other id keeps its membership and its count; an absent id is appended once; a present id is removed everywhere, keeping the order of the rest |
| Wishlist.ToggleKeepsNoDups | App.tsx:230-236 | a wishlist without repeated ids keeps having none after a toggle |
| Wishlist.ToggleTwiceMembership | App.tsx:230-236 | toggling the same id twice restores the membership of every id |
| Wishlist.ToggleTwiceRestores | App.tsx:230-236 | hearting an unwished id and then un-hearting it gives back the same list |
| ProductDetail.DefaultSelections | App.tsx:189-196 | the defaults have an entry exactly for the names of options whose value list is non-empty |
| ProductDetail.LastOfNameWins | App.tsx:191-194 | an option with values writes its first value, unless a later option of the same name overwrites it |
| ProductDetail.DefaultsAreFirstValues | App.tsx:189-196 | with distinct option names, every option with values defaults to its first value |
| ProductDetail.NoValuesNoDefaults | App.tsx:191-194 | options with no values yield no defaults at all |
| ProductDetail.QtyDown | App.tsx:551 | the minus button yields 1 from a quantity of at most 1 and subtracts 1 from a quantity of at least 2, so it never goes below 1 |
| ProductDetail.QtyUp | App.tsx:551 | the plus button raises the quantity |
| ProductDetail.QtyUpDownInverse | App.tsx:551 | minus undoes plus for every quantity of at least 1, and plus undoes minus from 2 upwards |
| ProductDetail.PressesKeepQtyPositive | App.tsx:551 | from a quantity of at least 1, no run of plus and minus presses goes below 1 |
| Catalog.SaveProduct | App.tsx:304-323 | a missing form or empty name fails with "Product name is required!"; a known id has every product with that id replaced by the edited product with the edited options, length unchanged, all others untouched; an unknown id is appended |
| Catalog.SaveProductIds | App.tsx:315-319 | a save leaves the id list unchanged for a known id and appends the id for a new one |
| Catalog.SaveProductKeepsUniqueIds | App.tsx:315-319 | a catalog with unique ids keeps unique ids after a save |
| Catalog.SaveProductReplacesOne | App.tsx:316 | with unique ids, replacing by id changes exactly the one position holding that id |
| Catalog.AddCategory | App.tsx:765-766 | only a non-empty name not already listed is appended; otherwise the list is unchanged |
| Catalog.AddCategoryKeepsNoDups | App.tsx:765-766 | adding a category never creates a repeated name |
| Catalog.DeleteCategory | App.tsx:778 | the deleted name is gone, every other name stays as often as before, and the rest keep their order |
| Catalog.DeleteCategoryKeepsNoDups | App.tsx:778 | deleting a category never creates a repeated name |
| Catalog.AddThenDeleteCategory | App.tsx:763-778 | deleting a category that was just added restores the earlier list |
| Catalog.FilteredProducts | App.tsx:168-177 | the result is an in-order subsequence of the catalog; it holds a product iff the product is in the catalog, matches the category (or "All" is chosen), and, for a non-empty search, has the lower-cased search text in its lower-cased name or category; every product kept is kept as often as the catalog holds it |
| Catalog.UnfilteredShowsAll | App.tsx:168-177 | with category "All" and an empty search, every product is returned, in order |
| Catalog.SearchIgnoresCase | App.tsx:173-174 | searching for the lower-cased text gives the same list as the original text |
| Catalog.ExactNameIsFound | App.tsx:173-174 | a product in the shown category is found by searching for its own name |
| Checkout.Press | App.tsx:1204-1257 | the cart's Checkout button opens step 1; Continue takes step 1 to 2; Back takes step 2 to 1; Review takes step 2 to 3; any other press, of a button not on screen at that step, leaves the step as it is |
| Checkout.PressIsMove | App.tsx:1204-1257 | every step button keeps the step in 1..3 and either leaves it alone or makes an allowed move: 1 to 2, 2 to 3, or back to 1 |
| Checkout.MoveHasButton | App.tsx:1204-1257 | every allowed move is made by some button |
| Checkout.NoSkipping | App.tsx:1236-1257 | a forward move goes up exactly one step |
| Checkout.PressAllStaysValid | App.tsx:1204-1257 | no run of step button presses leaves steps 1..3 |
| Checkout.NewOrder | App.tsx:241-254 | the order's items are the cart; its total is the goods total plus the shipping fee, which is also recorded; its status is "confirmed"; it carries the address fields, the payment method and the stamp's id and number |
| Checkout.SampleOrderTotal | App.tsx:246 | one item at 899 with shipping 29 gives a total of 928 |
| Store.Initial | App.tsx:12-19 | the initial state has an empty cart, wishlist and order list, holds the seeded catalog and categories, and satisfies the invariant |
| Store.Visible | App.tsx:168-177 | the storefront grid is an in-order subsequence of the catalog; it shows a product iff the product is in the catalog, is in the chosen category (or "All" is chosen), and, for a non-empty search, matches the search text, and as often as the catalog holds it; with no filter set it is the whole catalog |
| Store.NavigateToProduct | App.tsx:185-200 | the product is selected; the quantity is reset to 1 and the images to none; the option defaults have an entry exactly for the names of options with values, and each option with values that no later same-named option overrides supplies its first value; nothing else changes |
| Store.PickOption | App.tsx:516 | the picked value becomes that option's choice; every other option keeps its choice; only the choices change |
| Store.PickOptionOverrides | App.tsx:516 | two picks for the same option leave only the later one |
| Store.RemoveDetailImage | App.tsx:536 | the cross on uploaded image idx removes exactly that image and keeps the others in order; an index outside the list changes nothing; only the images change |
| Store.QtyMinus | App.tsx:551 | the quantity stays 1 from 1 (or below) and drops by one from 2 upwards; nothing else changes |
| Store.QtyPlus | App.tsx:551 | the quantity goes up by one; nothing else changes |
| Store.AddToCartDetailed | App.tsx:215-228 | with no selected product nothing changes; otherwise one line is appended with the selected product, quantity, option choices and images, and earlier lines are kept; only the cart changes |
| Store.AddToCartFigures | App.tsx:215-228 | adding to the bag raises the total by price times the chosen quantity and the count by the quantity |
| Store.RemoveFromCart | App.tsx:1177 | exactly line idx is removed and the rest keep their order; an index outside the cart changes nothing; only the cart changes |
| Store.RemoveFromCartFigures | App.tsx:1177 | removing a line lowers the total and the count by exactly that line's share |
| Store.ToggleWishlist | App.tsx:230-236 | the wishlist becomes Wishlist.Toggle's result: an absent id is appended once at the end; a present id is removed, the other ids staying as often as before and in order; only the wishlist changes |
| Store.PressStep | App.tsx:1204-1257 | the new step is the one Checkout.Press gives for that button: Checkout opens step 1, Continue takes 1 to 2, Back takes 2 to 1, Review takes 2 to 3; a valid step stays valid and every change is an allowed move; only the step changes |
| Store.FinalCheckout | App.tsx:238-260 | an empty cart changes nothing. Otherwise exactly one order is put at index 0 in front of the unchanged earlier orders. Its items are the old cart, its total is cartTotal plus the shipping fee, its shipping is the fee and its status is "confirmed". It is the order Checkout.NewOrder builds, so its buyer name, address line and phone are the current address's and its id and order number are the stamp's. The cart is emptied, the step returns to 1 and the new order is on display. Nothing else changes |
| Store.SaveProduct | App.tsx:304-323 | a refused save changes nothing; an accepted one replaces the catalog with the catalog-level save result; only the catalog changes |
| Store.AddCategory | App.tsx:763-771 | a non-empty, unlisted typed name is appended and the box cleared; otherwise nothing changes; products are never touched |
| Store.DeleteCategory | App.tsx:778 | the list becomes Catalog.DeleteCategory's result: the name is removed, other names stay as often as before and in order; products, including those filed under the deleted name, are unchanged |
| Store.FinalCheckoutKeepsOrdersConsistent | App.tsx:241-255 | placing an order keeps every stored order's total equal to its items' goods total plus its shipping |
| Store.ApplyKeepsInv | App.tsx:185-323 | every action keeps the invariant: quantities at least 1, step in 1..3, no repeated wishlist id, category or product id, and every order's total consistent with its items |
| Store.RunKeepsInv | App.tsx:185-323 | every state reached by a run of actions from a state satisfying the invariant satisfies it |
| Store.OrdersOnlyGrowAtFront | App.tsx:255 | no action edits or removes an order: the list is unchanged or gains exactly one order in front |
| Store.RunKeepsOldOrders | App.tsx:255 | after any run of actions the earlier orders are still the tail of the list, in order |
| Store.SampleCheckout | App.tsx:238-260 | a cart of one 899 item with shipping 29 checks out to a confirmed order of 928 and an empty cart |

## Left out

- Rendering, routing, scrolling and toast notices (App.tsx:180-183, 390-1453): UI only. The route changes after adding to the bag and after placing an order are not part of the state record.
- Persistence to the browser key-value store (App.tsx:116-161): I/O plus JSON parsing, which are foreign calls. A state restored from storage is not checked against `Inv`.
- Random order ids and numbers and the locale date and time strings (App.tsx:240-250): passed in as the opaque `Stamp`.
- `Date.now()` ids of admin records (App.tsx:269, 327, 355, 365) are not modelled.
- Image uploads through `FileReader` (App.tsx:202-213): an asynchronous browser API. The uploaded images are an opaque list in the state; removing one (App.tsx:536) is modelled as `Store.RemoveDetailImage`.
- The generative-text calls (App.tsx:285-302, 378-387): remote calls.
- `.toFixed(2)` formatting (App.tsx:1202): display only. Prices and quantities are unbounded integers; the source's JavaScript doubles, and any rounding they bring, are not modelled.
- Text.Lower: maps only the ASCII letters A-Z. JavaScript's `toLowerCase` also lower-cases other Unicode letters, so the search filter is modelled for ASCII text only.
- The option-editor keystroke handlers (App.tsx:1401-1404, 1414-1417): they mutate the edited objects in place, a UI aliasing quirk. The edited option list enters `SaveProduct` as a parameter.
- Opening the product form (`openEditProduct`, App.tsx:263-283): it only fills the form. The form contents enter `SaveProduct` as parameters.
- Product delete (App.tsx:737), FAQ, blog, flash-sale, discount and settings handlers: admin collections outside the storefront transitions modelled here.
- The payment choice (App.tsx:1250), the address form (App.tsx:1309-1311), the category pick and the search box: plain field setters. They appear as `Action` cases with no contract of their own.
- The seed data in constants.tsx: not modelled. The product at constants.tsx:29 is filed under 'Phone Cover', but the category list has 'Phone Covers'; nothing enforces that a product's category is listed.
- The step buttons are rendered only on their own step, and the Place Order button only on step 3. The model treats a press of a step button that is not on screen as a no-op. The exception is the cart's Checkout button, which the page renders only for a non-empty cart (App.tsx:1160-1204): the model lets it reset the step to 1 at any time. `finalCheckout` itself does not check the step, and neither does `Store.FinalCheckout`.

=== FILE: cart.dfy ===
/**
 The cart: an ordered list of lines, never merged. The storefront derives
 two figures from it, the total to pay for the goods (`cartTotal`) and the
 number of pieces (`cartCount`), and changes it by appending a line or by
 removing the line at a position.
 */
module Cart {
  import opened Types
  import Seqs

  /** Sum of `price * quantity`, accumulated from the first line to the last like `reduce`. */
  function SumSubtotals(cart: seq<CartItem>): int
    decreases |cart|
  {
    if |cart| == 0 then 0
    else SumSubtotals(cart[..|cart| - 1]) + cart[|cart| - 1].Subtotal()
  }

  /** Sum of `quantity`, accumulated from the first line to the last like `reduce`. */
  function SumQuantities(cart: seq<CartItem>): int
    decreases |cart|
  {
    if |cart| == 0 then 0
    else SumQuantities(cart[..|cart| - 1]) + cart[|cart| - 1].quantity
  }

  /** Every line asks for at least one piece. */
  predicate QuantitiesPositive(cart: seq<CartItem>) {
    forall i :: 0 <= i < |cart| ==> cart[i].quantity >= 1
  }

  /** `cartTotal`: walks the cart once, adding each line's `price * quantity`. */
  method CartTotal(cart: seq<CartItem>) returns (total: int)
    ensures total == SumSubtotals(cart)
    ensures cart == [] ==> total == 0
  {
    total := 0;
    var i := 0;
    while i < |cart|
      invariant 0 <= i <= |cart|
      invariant total == SumSubtotals(cart[..i])
    {
      assert cart[..i + 1][..i] == cart[..i];
      total := total + cart[i].product.price * cart[i].quantity;
      i := i + 1;
    }
    assert cart[..|cart|] == cart;
  }

  /** `cartCount`: walks the cart once, adding each line's `quantity`. */
  method CartCount(cart: seq<CartItem>) returns (count: int)
    ensures count == SumQuantities(cart)
    ensures cart == [] ==> count == 0
  {
    count := 0;
    var i := 0;
    while i < |cart|
      invariant 0 <= i <= |cart|
      invariant count == SumQuantities(cart[..i])
    {
      assert cart[..i + 1][..i] == cart[..i];
      count := count + cart[i].quantity;
      i := i + 1;
    }
    assert cart[..|cart|] == cart;
  }

  /** The total of two carts laid end to end is the sum of their totals. */
  lemma {:induction false} SumSubtotalsConcat(a: seq<CartItem>, b: seq<CartItem>)
    ensures SumSubtotals(a + b) == SumSubtotals(a) + SumSubtotals(b)
    decreases |b|
  {
    if |b| > 0 {
      var b' := b[..|b| - 1];
      assert (a + b)[..|a + b| - 1] == a + b';
      SumSubtotalsConcat(a, b');
    } else {
      assert a + b == a;
    }
  }

  /** The piece count of two carts laid end to end is the sum of their counts. */
  lemma {:induction false} SumQuantitiesConcat(a: seq<CartItem>, b: seq<CartItem>)
    ensures SumQuantities(a + b) == SumQuantities(a) + SumQuantities(b)
    decreases |b|
  {
    if |b| > 0 {
      var b' := b[..|b| - 1];
      assert (a + b)[..|a + b| - 1] == a + b';
      SumQuantitiesConcat(a, b');
    } else {
      assert a + b == a;
    }
  }

  /** With every quantity at least one, the piece count is at least the number of lines. */
  lemma {:induction false} CountAtLeastLines(cart: seq<CartItem>)
    requires QuantitiesPositive(cart)
    ensures SumQuantities(cart) >= |cart|
    ensures |cart| > 0 ==> SumQuantities(cart) > 0
    decreases |cart|
  {
    if |cart| > 0 {
      CountAtLeastLines(cart[..|cart| - 1]);
    }
  }

  /** The add-to-bag update `[...prev, item]`. */
  function AddLine(cart: seq<CartItem>, item: CartItem): (r: seq<CartItem>)
    ensures |r| == |cart| + 1
    ensures r[..|cart|] == cart
    ensures r[|cart|] == item
  {
    cart + [item]
  }

  /** The remove button `cart.filter((_, i) => i !== idx)`. */
  function RemoveLine(cart: seq<CartItem>, idx: int): (r: seq<CartItem>)
    ensures 0 <= idx < |cart| ==> |r| == |cart| - 1 && r == cart[..idx] + cart[idx + 1..]
    ensures !(0 <= idx < |cart|) ==> r == cart
  {
    Seqs.DropIndex(cart, idx)
  }

  /** Appending a line raises the total by its subtotal and the count by its quantity. */
  lemma AddLineFigures(cart: seq<CartItem>, item: CartItem)
    ensures SumSubtotals(AddLine(cart, item)) == SumSubtotals(cart) + item.Subtotal()
    ensures SumQuantities(AddLine(cart, item)) == SumQuantities(cart) + item.quantity
  {
    var r := AddLine(cart, item);
    assert r[..|r| - 1] == cart;
  }

  /** Taking one line out of the middle of a cart lowers its figures by that line's share. */
  lemma DropLineFigures(cart: seq<CartItem>, front: seq<CartItem>, item: CartItem, back: seq<CartItem>)
    requires cart == front + [item] + back
    ensures SumSubtotals(front + back) == SumSubtotals(cart) - item.Subtotal()
    ensures SumQuantities(front + back) == SumQuantities(cart) - item.quantity
  {
    AddLineFigures(front, item);
    SumSubtotalsConcat(front + [item], back);
    SumSubtotalsConcat(front, back);
    SumQuantitiesConcat(front + [item], back);
    SumQuantitiesConcat(front, back);
  }

  /** Removing line `idx` lowers the total by that line's subtotal and the count by its quantity. */
  lemma RemoveLineFigures(cart: seq<CartItem>, idx: int)
    requires 0 <= idx < |cart|
    ensures SumSubtotals(RemoveLine(cart, idx)) == SumSubtotals(cart) - cart[idx].Subtotal()
    ensures SumQuantities(RemoveLine(cart, idx)) == SumQuantities(cart) - cart[idx].quantity
  {
    SplitAt(cart, idx);
    DropLineFigures(cart, cart[..idx], cart[idx], cart[idx + 1..]);
  }

  /** A cart is its lines before `idx`, line `idx`, and the lines after it. */
  lemma SplitAt(cart: seq<CartItem>, idx: int)
    requires 0 <= idx < |cart|
    ensures cart == cart[..idx] + [cart[idx]] + cart[idx + 1..]
  {
  }

  /** Appending a line of at least one piece keeps every quantity positive. */
  lemma AddLineKeepsQuantities(cart: seq<CartItem>, item: CartItem)
    requires QuantitiesPositive(cart) && item.quantity >= 1
    ensures QuantitiesPositive(AddLine(cart, item))
  {
  }

  /** Removing a line keeps every quantity positive. */
  lemma RemoveLineKeepsQuantities(cart: seq<CartItem>, idx: int)
    requires QuantitiesPositive(cart)
    ensures QuantitiesPositive(RemoveLine(cart, idx))
  {
    var r := RemoveLine(cart, idx);
    if 0 <= idx < |cart| {
      forall i | 0 <= i < |r|
        ensures r[i].quantity >= 1
      {
        if i < idx {
          assert r[i] == r[..idx][i] == cart[i];
        } else {
          assert r[i] == r[idx..][i - idx] == cart[i + 1];
        }
      }
    }
  }
}

=== FILE: catalog.dfy ===
/**
 The catalog side: the admin's product save (insert or replace by id), the
 category list's add and delete buttons, and the storefront's filtered view
 of the products by category and search text.
 */
module Catalog {
  import opened Types
  import opened Seqs
  import opened Text

  /** The ids of the catalog, position by position. */
  function Ids(products: seq<Product>): (r: seq<string>)
    ensures |r| == |products|
    ensures forall i :: 0 <= i < |products| ==> r[i] == products[i].id
  {
    seq(|products|, i requires 0 <= i < |products| => products[i].id)
  }

  /** No two products share an id. */
  predicate UniqueIds(products: seq<Product>) {
    NoDups(Ids(products))
  }

  /** The notice shown when the product form is saved without a name. */
  const NameRequired: string := "Product name is required!"

  /**
   `saveProduct`: the edited product, with the edited option list, replaces
   every product carrying its id, or is appended when no product does. A
   missing form or an empty name is refused and the catalog is unchanged.
   */
  function SaveProduct(products: seq<Product>, editing: Option<Product>, options: seq<ProductOption>)
    : (r: Result<seq<Product>, string>)
    ensures r.Failure? <==> editing.None? || editing.value.name == ""
    ensures r.Failure? ==> r.error == NameRequired
    ensures r.Success? && editing.value.id in Ids(products) ==>
      |r.value| == |products| &&
      forall i :: 0 <= i < |products| ==>
        if products[i].id == editing.value.id then r.value[i] == editing.value.(options := options)
        else r.value[i] == products[i]
    ensures r.Success? && editing.value.id !in Ids(products) ==>
      r.value == products + [editing.value.(options := options)]
  {
    if editing.None? || editing.value.name == "" then Failure(NameRequired)
    else
      var saved := editing.value.(options := options);
      if saved.id in Ids(products) then
        Success(seq(|products|, i requires 0 <= i < |products| =>
          if products[i].id == saved.id then saved else products[i]))
      else Success(products + [saved])
  }

  /** A save keeps the ids as they were, adding the saved id only when it was new. */
  lemma SaveProductIds(products: seq<Product>, editing: Option<Product>, options: seq<ProductOption>)
    requires SaveProduct(products, editing, options).Success?
    ensures var ids := Ids(SaveProduct(products, editing, options).value);
      if editing.value.id in Ids(products) then ids == Ids(products)
      else ids == Ids(products) + [editing.value.id]
  {
  }

  /** A catalog without repeated ids keeps that property through a save. */
  lemma SaveProductKeepsUniqueIds(products: seq<Product>, editing: Option<Product>, options: seq<ProductOption>)
    requires UniqueIds(products)
    ensures match SaveProduct(products, editing, options)
      case Success(ps) => UniqueIds(ps)
      case Failure(_) => true
  {
    var r := SaveProduct(products, editing, options);
    if r.Success? {
      SaveProductIds(products, editing, options);
      var id := editing.value.id;
      if id !in Ids(products) {
        var ids := Ids(products);
        var nids := ids + [id];
        forall i, j | 0 <= i < j < |nids|
          ensures nids[i] != nids[j]
        {
          assert nids[i] == ids[i];
          if j < |ids| {
            assert nids[j] == ids[j];
          }
        }
      }
    }
  }

  /** With unique ids, a save over an existing id changes exactly one position. */
  lemma SaveProductReplacesOne(products: seq<Product>, editing: Option<Product>, options: seq<ProductOption>, k: int)
    requires UniqueIds(products)
    requires SaveProduct(products, editing, options).Success?
    requires 0 <= k < |products| && products[k].id == editing.value.id
    ensures var ps := SaveProduct(products, editing, options).value;
      |ps| == |products| && ps[k] == editing.value.(options := options) &&
      forall i :: 0 <= i < |products| && i != k ==> ps[i] == products[i]
  {
    var ids := Ids(products);
    assert ids[k] == editing.value.id;
    forall i | 0 <= i < |products| && i != k
      ensures products[i].id != editing.value.id
    {
      if i < k {
        assert ids[i] != ids[k];
      } else {
        assert ids[k] != ids[i];
      }
    }
  }

  /**
   The category Add button: a non-empty name not yet on the list is
   appended; anything else leaves the list as it was.
   */
  function AddCategory(categories: seq<string>, name: string): (r: seq<string>)
    ensures name != "" && name !in categories ==> r == categories + [name]
    ensures name == "" || name in categories ==> r == categories
    ensures forall c :: c in r <==> c in categories || (c == name && name != "")
  {
    if name != "" && name !in categories then categories + [name] else categories
  }

  /** Adding a category never creates a repeated name. */
  lemma AddCategoryKeepsNoDups(categories: seq<string>, name: string)
    requires NoDups(categories)
    ensures NoDups(AddCategory(categories, name))
  {
    var r := AddCategory(categories, name);
    if r != categories {
      forall i, j | 0 <= i < j < |r|
        ensures r[i] != r[j]
      {
        assert r[i] == categories[i];
        if j < |categories| {
          assert r[j] == categories[j];
        }
      }
    }
  }

  /**
   The category delete button: removes every entry equal to `name`; every
   other entry stays, as often as before and in the same order.
   */
  function DeleteCategory(categories: seq<string>, name: string): (r: seq<string>)
    ensures name !in r
    ensures forall c :: c != name ==> (c in r <==> c in categories)
    ensures forall c :: c != name ==> multiset(r)[c] == multiset(categories)[c]
    ensures IsSubseq(r, categories)
  {
    Filter(categories, c => c != name)
  }

  /** Deleting a category never creates a repeated name. */
  lemma DeleteCategoryKeepsNoDups(categories: seq<string>, name: string)
    requires NoDups(categories)
    ensures NoDups(DeleteCategory(categories, name))
  {
    FilterKeepsNoDups(categories, c => c != name);
  }

  /** Deleting a category that was just added gives the earlier list back. */
  lemma AddThenDeleteCategory(categories: seq<string>, name: string)
    requires name != "" && name !in categories
    ensures DeleteCategory(AddCategory(categories, name), name) == categories
  {
    var f := (c: string) => c != name;
    FilterConcat(categories, [name], f);
    FilterAllPass(categories, f);
    assert Filter([name], f) == [];
  }

  /** The search text matches the product's name or category, both compared lower-cased. */
  predicate MatchesQuery(p: Product, query: string) {
    Contains(Lower(p.name), Lower(query)) || Contains(Lower(p.category), Lower(query))
  }

  /** A product passes the category filter: the chosen category, or any when "All" is chosen. */
  predicate InCategory(p: Product, category: string) {
    category == AllCategories || p.category == category
  }

  /**
   `filteredProducts`: first keeps the chosen category unless it is "All",
   then, when the search box is non-empty, keeps the products matching the
   search text.
   */
  function FilteredProducts(products: seq<Product>, category: string, query: string): (r: seq<Product>)
    ensures IsSubseq(r, products)
    ensures forall p :: p in r <==>
      p in products && InCategory(p, category) && (query == "" || MatchesQuery(p, query))
    ensures forall p ::
      multiset(r)[p] == if InCategory(p, category) && (query == "" || MatchesQuery(p, query)) then multiset(products)[p] else 0
  {
    var byCategory := if category != AllCategories then Filter(products, (p: Product) => p.category == category) else products;
    var bySearch := if query != "" then Filter(byCategory, (p: Product) => MatchesQuery(p, query)) else byCategory;
    SubseqRefl(products);
    SubseqRefl(byCategory);
    SubseqTrans(bySearch, byCategory, products);
    bySearch
  }

  /** With category "All" and an empty search box, the storefront lists the whole catalog in order. */
  lemma UnfilteredShowsAll(products: seq<Product>)
    ensures FilteredProducts(products, AllCategories, "") == products
  {
  }

  /** The search is case-insensitive: searching for the lower-cased text gives the same list. */
  lemma SearchIgnoresCase(products: seq<Product>, category: string, query: string)
    ensures FilteredProducts(products, category, Lower(query)) == FilteredProducts(products, category, query)
  {
    LowerIdempotent(query);
    var byCategory := if category != AllCategories then Filter(products, (p: Product) => p.category == category) else products;
    FilterExt(byCategory, (p: Product) => MatchesQuery(p, Lower(query)), (p: Product) => MatchesQuery(p, query));
  }

  /** A product whose name is exactly the search text, in any letter case, is listed when its category is shown. */
  lemma ExactNameIsFound(products: seq<Product>, category: string, p: Product)
    requires p in products && InCategory(p, category)
    ensures p in FilteredProducts(products, category, p.name)
  {
    ContainsSelfAndEmpty(Lower(p.name), Lower(p.name));
  }
}

=== FILE: checkout.dfy ===
/**
 Checkout: a three-step page (1 shipping, 2 payment, 3 confirm) driven by
 its buttons, and the order that placing it produces.
 */
module Checkout {
  import opened Types
  import Cart

  /** The steps the page can show. */
  predicate ValidStep(step: int) {
    1 <= step <= 3
  }

  /**
   The buttons that move the step. `EnterCheckout` is the cart page's
   Checkout button; `Continue` is shown only on step 1; `Back` and `Review`
   only on step 2.
   */
  datatype StepButton = EnterCheckout | Continue | Back | Review

  /**
   The step after pressing `b`: the cart's Checkout button opens step 1,
   Continue takes 1 to 2, Back takes 2 to 1 and Review takes 2 to 3. A
   button that is not on screen at `step` cannot act.
   */
  function Press(step: int, b: StepButton): (r: int)
    ensures b == EnterCheckout ==> r == 1
    ensures step == 1 && b == Continue ==> r == 2
    ensures step == 2 && b == Back ==> r == 1
    ensures step == 2 && b == Review ==> r == 3
    ensures b != EnterCheckout && !(step == 1 && b == Continue) && !(step == 2 && (b == Back || b == Review)) ==>
      r == step
  {
    match b
    case EnterCheckout => 1
    case Continue => if step == 1 then 2 else step
    case Back => if step == 2 then 1 else step
    case Review => if step == 2 then 3 else step
  }

  /** The moves the page allows: 1 to 2, 2 back to 1, 2 on to 3, and a restart at 1 from anywhere. */
  predicate Move(from: int, to: int) {
    (from == 1 && to == 2) || (from == 2 && to == 3) || to == 1
  }

  /** Every button press either leaves the step alone or makes an allowed move, and stays on the page. */
  lemma PressIsMove(step: int, b: StepButton)
    requires ValidStep(step)
    ensures ValidStep(Press(step, b))
    ensures Press(step, b) == step || Move(step, Press(step, b))
  {
  }

  /** Every allowed move is made by some button. */
  lemma MoveHasButton(from: int, to: int)
    requires ValidStep(from) && Move(from, to)
    ensures exists b :: Press(from, b) == to
  {
    if to == 1 {
      assert Press(from, EnterCheckout) == to;
    } else if from == 1 {
      assert Press(from, Continue) == to;
    } else {
      assert Press(from, Review) == to;
    }
  }

  /** Forward moves never skip a step. */
  lemma NoSkipping(step: int, b: StepButton)
    requires ValidStep(step)
    ensures Press(step, b) > step ==> Press(step, b) == step + 1
  {
  }

  /** The step after a run of presses. */
  function PressAll(step: int, presses: seq<StepButton>): int
    decreases |presses|
  {
    if |presses| == 0 then step else PressAll(Press(step, presses[0]), presses[1..])
  }

  /** Starting anywhere on the page, no run of presses leaves steps 1 to 3. */
  lemma {:induction false} PressAllStaysValid(step: int, presses: seq<StepButton>)
    requires ValidStep(step)
    ensures ValidStep(PressAll(step, presses))
    decreases |presses|
  {
    if |presses| > 0 {
      PressIsMove(step, presses[0]);
      PressAllStaysValid(Press(step, presses[0]), presses[1..]);
    }
  }

  /** The charged amount is the goods plus the shipping that was charged. */
  predicate OrderConsistent(o: Order) {
    o.total == Cart.SumSubtotals(o.items) + o.shipping
  }

  /**
   The order `finalCheckout` builds: the cart copied as its items, the
   goods total plus the shipping fee as its total, status "confirmed", the
   address fields of the buyer and the chosen payment method.
   */
  function NewOrder(cart: seq<CartItem>, shippingFee: int, address: Address, payment: string, stamp: Stamp)
    : (o: Order)
    ensures o.items == cart
    ensures o.shipping == shippingFee
    ensures o.total - o.shipping == Cart.SumSubtotals(cart)
    ensures OrderConsistent(o)
    ensures o.status == Confirmed
    ensures o.customerName == address.name && o.address == address.line && o.phone == address.phone
    ensures o.paymentMethod == payment
    ensures o.id == stamp.id && o.orderNumber == stamp.orderNumber
  {
    Order(
      id := stamp.id,
      orderNumber := stamp.orderNumber,
      customerName := address.name,
      items := cart,
      total := Cart.SumSubtotals(cart) + shippingFee,
      shipping := shippingFee,
      status := Confirmed,
      date := stamp.date,
      time := stamp.time,
      address := address.line,
      phone := address.phone,
      paymentMethod := payment)
  }

  /** The storefront's sample: one Photo Magazine at 899 with the 29 shipping fee is charged 928. */
  lemma SampleOrderTotal(address: Address, stamp: Stamp, p: Product, options: map<string, string>)
    requires p.price == 899
    ensures NewOrder([CartItem(p, 1, options, [])], 29, address, "Cash on Delivery", stamp).total == 928
  {
    var cart := [CartItem(p, 1, options, [])];
    assert cart[..0] == [];
    assert Cart.SumSubtotals(cart) == Cart.SumSubtotals([]) + cart[0].Subtotal();
  }
}

=== FILE: detail.dfy ===
/**
 The product-detail page: opening a product pre-selects a value for each
 variant option and resets the quantity picker, whose minus button never
 goes below one.
 */
module ProductDetail {
  import opened Types

  /** Option `i` offers at least one value. */
  predicate Offers(opts: seq<ProductOption>, i: int)
    requires 0 <= i < |opts|
  {
    |opts[i].values| > 0
  }

  /** No later option that offers values has the same name as option `i`. */
  predicate LastOfName(opts: seq<ProductOption>, i: int)
    requires 0 <= i < |opts|
  {
    forall j :: i < j < |opts| && Offers(opts, j) ==> opts[j].name != opts[i].name
  }

  /** The names of the options that offer at least one value. */
  function OfferedNames(opts: seq<ProductOption>): set<string> {
    set i | 0 <= i < |opts| && Offers(opts, i) :: opts[i].name
  }

  /**
   The defaults built by `navigateToProduct`: walking the options in order,
   each one with a non-empty value list writes its first value under its
   name, so a later option of the same name overrides an earlier one.
   Exactly the names of options that offer values get an entry.
   */
  function DefaultSelections(opts: seq<ProductOption>): (m: map<string, string>)
    ensures m.Keys == OfferedNames(opts)
    decreases |opts|
  {
    if |opts| == 0 then map[]
    else
      var init := opts[..|opts| - 1];
      var last := opts[|opts| - 1];
      var m0 := DefaultSelections(init);
      OfferedNamesSnoc(init, last);
      assert opts == init + [last];
      if |last.values| > 0 then m0[last.name := last.values[0]] else m0
  }

  /** Adding an option at the end adds its name to the offered names exactly when it offers values. */
  lemma OfferedNamesSnoc(init: seq<ProductOption>, last: ProductOption)
    ensures OfferedNames(init + [last]) ==
      OfferedNames(init) + (if |last.values| > 0 then {last.name} else {})
  {
    var opts := init + [last];
    forall k | k in OfferedNames(opts)
      ensures k in OfferedNames(init) + (if |last.values| > 0 then {last.name} else {})
    {
      var i :| 0 <= i < |opts| && Offers(opts, i) && opts[i].name == k;
      if i < |init| {
        assert Offers(init, i) && init[i].name == k;
      }
    }
    forall k | k in OfferedNames(init)
      ensures k in OfferedNames(opts)
    {
      var i :| 0 <= i < |init| && Offers(init, i) && init[i].name == k;
      assert Offers(opts, i) && opts[i].name == k;
    }
    if |last.values| > 0 {
      assert Offers(opts, |init|) && opts[|init|].name == last.name;
    }
  }

  /** The entry under an option's name is that option's first value when no later option of that name offers values. */
  lemma {:induction false} LastOfNameWins(opts: seq<ProductOption>, i: int)
    requires 0 <= i < |opts| && Offers(opts, i) && LastOfName(opts, i)
    ensures DefaultSelections(opts)[opts[i].name] == opts[i].values[0]
    decreases |opts|
  {
    var init := opts[..|opts| - 1];
    var last := opts[|opts| - 1];
    if i < |opts| - 1 {
      assert init[i] == opts[i];
      assert LastOfName(init, i) by {
        forall j | i < j < |init| && Offers(init, j)
          ensures init[j].name != init[i].name
        {
          assert init[j] == opts[j] && Offers(opts, j);
        }
      }
      LastOfNameWins(init, i);
      if |last.values| > 0 {
        assert Offers(opts, |opts| - 1);
      }
    }
  }

  /** Option names are pairwise distinct. */
  predicate DistinctNames(opts: seq<ProductOption>) {
    forall i, j :: 0 <= i < j < |opts| ==> opts[i].name != opts[j].name
  }

  /** With distinct option names, each option that offers values defaults to its first value. */
  lemma DefaultsAreFirstValues(opts: seq<ProductOption>)
    requires DistinctNames(opts)
    ensures forall i :: 0 <= i < |opts| && Offers(opts, i) ==>
      DefaultSelections(opts)[opts[i].name] == opts[i].values[0]
  {
    forall i | 0 <= i < |opts| && Offers(opts, i)
      ensures DefaultSelections(opts)[opts[i].name] == opts[i].values[0]
    {
      LastOfNameWins(opts, i);
    }
  }

  /** An option list in which no option offers a value yields no defaults at all. */
  lemma NoValuesNoDefaults(opts: seq<ProductOption>)
    requires forall i :: 0 <= i < |opts| ==> !Offers(opts, i)
    ensures DefaultSelections(opts) == map[]
  {
  }

  /** The quantity picker's minus button: `Math.max(1, qty - 1)`. */
  function QtyDown(qty: int): (r: int)
    ensures r >= 1
    ensures r <= qty || qty < 1
    ensures qty <= 1 ==> r == 1
    ensures qty >= 2 ==> r == qty - 1
  {
    if qty - 1 > 1 then qty - 1 else 1
  }

  /** The quantity picker's plus button. */
  function QtyUp(qty: int): (r: int)
    ensures r > qty
  {
    qty + 1
  }

  /** Minus undoes plus for any quantity the picker can show, and plus undoes minus above one. */
  lemma QtyUpDownInverse(qty: int)
    requires qty >= 1
    ensures QtyDown(QtyUp(qty)) == qty
    ensures qty >= 2 ==> QtyUp(QtyDown(qty)) == qty
  {
  }

  datatype QtyButton = Minus | Plus

  /** The quantity after a run of button presses. */
  function PressAll(qty: int, presses: seq<QtyButton>): int
    decreases |presses|
  {
    if |presses| == 0 then qty
    else
      var next := if presses[0] == Minus then QtyDown(qty) else QtyUp(qty);
      PressAll(next, presses[1..])
  }

  /** Starting from the reset value 1, no run of presses takes the quantity below one. */
  lemma {:induction false} PressesKeepQtyPositive(qty: int, presses: seq<QtyButton>)
    requires qty >= 1
    ensures PressAll(qty, presses) >= 1
    decreases |presses|
  {
    if |presses| > 0 {
      var next := if presses[0] == Minus then QtyDown(qty) else QtyUp(qty);
      PressesKeepQtyPositive(next, presses[1..]);
    }
  }
}

=== FILE: seqs.dfy ===
/**
 Sequence operations the storefront builds its lists with: `Array.filter`
 by predicate, filter by position, and the facts about them (order-preserving
 subsequence, duplicate-freedom).
 */
module Seqs {

  /** `a` occurs in `b` in order, possibly with gaps. */
  ghost predicate IsSubseq<T>(a: seq<T>, b: seq<T>)
    decreases |b|
  {
    |a| == 0 ||
    (|b| > 0 && ((a[0] == b[0] && IsSubseq(a[1..], b[1..])) || IsSubseq(a, b[1..])))
  }

  /** No value occurs twice. */
  predicate NoDups<T(==)>(s: seq<T>) {
    forall i, j :: 0 <= i < j < |s| ==> s[i] != s[j]
  }

  /** `s.filter(f)`: the elements satisfying `f`, in their original order. */
  function Filter<T(==,!new)>(s: seq<T>, f: T -> bool): (r: seq<T>)
    ensures |r| <= |s|
    ensures forall x :: x in r <==> x in s && f(x)
    ensures forall x :: multiset(r)[x] == if f(x) then multiset(s)[x] else 0
    ensures IsSubseq(r, s)
    ensures (exists x :: x in s && !f(x)) ==> |r| < |s|
    decreases |s|
  {
    if |s| == 0 then []
    else
      var rest := Filter(s[1..], f);
      assert s == [s[0]] + s[1..];
      if f(s[0]) then [s[0]] + rest else rest
  }

  /** `s.filter((_, i) => i !== idx)`: walks the list and drops position `idx`, if there is one. */
  function DropIndex<T>(s: seq<T>, idx: int): (r: seq<T>)
    ensures 0 <= idx < |s| ==> r == s[..idx] + s[idx + 1..]
    ensures !(0 <= idx < |s|) ==> r == s
    decreases |s|
  {
    if |s| == 0 then []
    else if idx == 0 then s[1..]
    else
      var rest := DropIndex(s[1..], idx - 1);
      assert s == [s[0]] + s[1..];
      [s[0]] + rest
  }

  lemma {:induction false} SubseqRefl<T>(s: seq<T>)
    ensures IsSubseq(s, s)
    decreases |s|
  {
    if |s| > 0 {
      SubseqRefl(s[1..]);
    }
  }

  /** Being a subsequence is transitive: filtering a filtered list still yields a subsequence. */
  lemma {:induction false} SubseqTrans<T>(a: seq<T>, b: seq<T>, c: seq<T>)
    requires IsSubseq(a, b) && IsSubseq(b, c)
    ensures IsSubseq(a, c)
    decreases |a| + |b| + |c|
  {
    if |a| > 0 {
      if IsSubseq(b, c[1..]) {
        SubseqTrans(a, b, c[1..]);
      } else {
        assert b[0] == c[0] && IsSubseq(b[1..], c[1..]);
        if a[0] == b[0] && IsSubseq(a[1..], b[1..]) {
          SubseqTrans(a[1..], b[1..], c[1..]);
        } else {
          SubseqTrans(a, b[1..], c[1..]);
        }
      }
    }
  }

  /** Putting a fresh value in front of a repeat-free list keeps it repeat-free. */
  lemma ConsNoDups<T>(x: T, t: seq<T>)
    requires NoDups(t) && x !in t
    ensures NoDups([x] + t)
  {
    var r := [x] + t;
    forall i, j | 0 <= i < j < |r|
      ensures r[i] != r[j]
    {
      assert r[j] == t[j - 1];
      if i > 0 {
        assert r[i] == t[i - 1];
      }
    }
  }

  /** Dropping the head of a repeat-free list leaves a repeat-free list that lacks the head. */
  lemma TailNoDups<T>(s: seq<T>)
    requires NoDups(s) && |s| > 0
    ensures NoDups(s[1..]) && s[0] !in s[1..]
  {
    var t := s[1..];
    forall i, j | 0 <= i < j < |t|
      ensures t[i] != t[j]
    {
      assert t[i] == s[i + 1] && t[j] == s[j + 1];
    }
    forall j | 0 <= j < |t|
      ensures t[j] != s[0]
    {
      assert t[j] == s[j + 1];
    }
  }

  /** Filtering never introduces a duplicate. */
  lemma {:induction false} FilterKeepsNoDups<T(!new)>(s: seq<T>, f: T -> bool)
    requires NoDups(s)
    ensures NoDups(Filter(s, f))
    decreases |s|
  {
    if |s| > 0 {
      TailNoDups(s);
      FilterKeepsNoDups(s[1..], f);
      if f(s[0]) {
        ConsNoDups(s[0], Filter(s[1..], f));
      }
    }
  }

  /** A filter that every element passes returns the list unchanged. */
  lemma {:induction false} FilterAllPass<T(!new)>(s: seq<T>, f: T -> bool)
    requires forall i :: 0 <= i < |s| ==> f(s[i])
    ensures Filter(s, f) == s
    decreases |s|
  {
    if |s| > 0 {
      FilterAllPass(s[1..], f);
      assert s == [s[0]] + s[1..];
    }
  }

  /** Filtering distributes over concatenation. */
  lemma {:induction false} FilterConcat<T(!new)>(a: seq<T>, b: seq<T>, f: T -> bool)
    ensures Filter(a + b, f) == Filter(a, f) + Filter(b, f)
    decreases |a|
  {
    if |a| > 0 {
      assert (a + b)[1..] == a[1..] + b;
      FilterConcat(a[1..], b, f);
    } else {
      assert a + b == b;
    }
  }

  /** Two predicates that agree everywhere select the same elements. */
  lemma {:induction false} FilterExt<T(!new)>(s: seq<T>, f: T -> bool, g: T -> bool)
    requires forall x :: f(x) == g(x)
    ensures Filter(s, f) == Filter(s, g)
    decreases |s|
  {
    if |s| > 0 {
      FilterExt(s[1..], f, g);
    }
  }
}

=== FILE: store.dfy ===
/**
 The storefront's state and the transitions its handlers perform. Each
 handler of the single top-level component is a pure function from the old
 state to the new one; `Apply` dispatches a user action to its handler and
 `Inv` collects the facts every reachable state keeps.
 */
module Store {
  import opened Types
  import opened Seqs
  import Cart
  import Wishlist
  import ProductDetail
  import Catalog
  import Checkout

  /** The slices of component state the handlers read and write. */
  datatype StoreState = StoreState(
    products: seq<Product>,
    cart: seq<CartItem>,
    wishlist: seq<string>,
    orders: seq<Order>,
    categories: seq<string>,
    shippingFee: int,
    selectedCategory: string,
    searchQuery: string,
    selectedProduct: Option<Product>,
    detailSelections: map<string, string>,
    detailImages: seq<string>,
    detailQty: int,
    checkoutStep: int,
    checkoutPayment: string,
    address: Address,
    viewingOrder: Option<Order>,
    newCategoryName: string)

  /** The payment method preselected on the checkout page. */
  const DefaultPayment: string := "Credit/Debit Card"

  /** What holds of every state the handlers can reach from a well-formed start. */
  predicate Inv(s: StoreState) {
    && s.detailQty >= 1
    && Cart.QuantitiesPositive(s.cart)
    && Checkout.ValidStep(s.checkoutStep)
    && NoDups(s.wishlist)
    && NoDups(s.categories)
    && Catalog.UniqueIds(s.products)
    && (forall i :: 0 <= i < |s.orders| ==> Checkout.OrderConsistent(s.orders[i]))
  }

  /** The state on first load: seeded catalog and categories, empty cart, wishlist and orders. */
  function Initial(products: seq<Product>, categories: seq<string>, shippingFee: int, address: Address)
    : (s: StoreState)
    requires Catalog.UniqueIds(products) && NoDups(categories)
    ensures Inv(s)
    ensures s.cart == [] && s.wishlist == [] && s.orders == []
    ensures s.products == products && s.categories == categories
  {
    StoreState(
      products := products,
      cart := [],
      wishlist := [],
      orders := [],
      categories := categories,
      shippingFee := shippingFee,
      selectedCategory := AllCategories,
      searchQuery := "",
      selectedProduct := None,
      detailSelections := map[],
      detailImages := [],
      detailQty := 1,
      checkoutStep := 1,
      checkoutPayment := DefaultPayment,
      address := address,
      viewingOrder := None,
      newCategoryName := "")
  }

  /** `filteredProducts`: the products the storefront grid shows. */
  function Visible(s: StoreState): (r: seq<Product>)
    ensures IsSubseq(r, s.products)
    ensures forall p :: p in r <==>
      p in s.products && Catalog.InCategory(p, s.selectedCategory) &&
      (s.searchQuery == "" || Catalog.MatchesQuery(p, s.searchQuery))
    ensures forall p ::
      multiset(r)[p] ==
        if Catalog.InCategory(p, s.selectedCategory) && (s.searchQuery == "" || Catalog.MatchesQuery(p, s.searchQuery))
        then multiset(s.products)[p] else 0
    ensures s.selectedCategory == AllCategories && s.searchQuery == "" ==> r == s.products
  {
    Catalog.UnfilteredShowsAll(s.products);
    Catalog.FilteredProducts(s.products, s.selectedCategory, s.searchQuery)
  }

  /**
   `navigateToProduct`: selects the product, resets the quantity to 1 and the
   uploaded images to none, and preselects the first value of every option
   that offers one; of two options with the same name, the later one wins.
   */
  function NavigateToProduct(s: StoreState, p: Product): (r: StoreState)
    ensures r.selectedProduct == Some(p)
    ensures r.detailQty == 1 && r.detailImages == []
    ensures r.detailSelections.Keys == ProductDetail.OfferedNames(p.options)
    ensures forall i :: 0 <= i < |p.options| && ProductDetail.Offers(p.options, i) && ProductDetail.LastOfName(p.options, i) ==>
      r.detailSelections[p.options[i].name] == p.options[i].values[0]
    ensures r == s.(selectedProduct := r.selectedProduct, detailQty := 1,
                    detailSelections := r.detailSelections, detailImages := [])
  {
    var defaults := ProductDetail.DefaultSelections(p.options);
    assert forall i :: 0 <= i < |p.options| && ProductDetail.Offers(p.options, i) && ProductDetail.LastOfName(p.options, i) ==>
      defaults[p.options[i].name] == p.options[i].values[0]
    by {
      forall i | 0 <= i < |p.options| && ProductDetail.Offers(p.options, i) && ProductDetail.LastOfName(p.options, i)
        ensures defaults[p.options[i].name] == p.options[i].values[0]
      {
        ProductDetail.LastOfNameWins(p.options, i);
      }
    }
    s.(selectedProduct := Some(p), detailQty := 1,
       detailSelections := defaults, detailImages := [])
  }

  /**
   A value button of an option on the detail page: that option's choice
   becomes `value`, every other option keeps its choice.
   */
  function PickOption(s: StoreState, name: string, value: string): (r: StoreState)
    ensures name in r.detailSelections && r.detailSelections[name] == value
    ensures r.detailSelections.Keys == s.detailSelections.Keys + {name}
    ensures forall k :: k in s.detailSelections && k != name ==> r.detailSelections[k] == s.detailSelections[k]
    ensures r == s.(detailSelections := r.detailSelections)
  {
    s.(detailSelections := s.detailSelections[name := value])
  }

  /** Picking a value twice for the same option keeps only the later pick. */
  lemma PickOptionOverrides(s: StoreState, name: string, first: string, second: string)
    ensures PickOption(PickOption(s, name, first), name, second) == PickOption(s, name, second)
  {
    var a := PickOption(PickOption(s, name, first), name, second).detailSelections;
    var b := PickOption(s, name, second).detailSelections;
    assert a.Keys == b.Keys;
    assert forall k :: k in a ==> a[k] == b[k];
  }

  /**
   The cross on uploaded image `idx` of the detail page: exactly that image
   goes and the others keep their order; an index outside the list changes
   nothing.
   */
  function RemoveDetailImage(s: StoreState, idx: int): (r: StoreState)
    ensures 0 <= idx < |s.detailImages| ==>
      |r.detailImages| == |s.detailImages| - 1 && r.detailImages == s.detailImages[..idx] + s.detailImages[idx + 1..]
    ensures !(0 <= idx < |s.detailImages|) ==> r == s
    ensures r == s.(detailImages := r.detailImages)
  {
    s.(detailImages := DropIndex(s.detailImages, idx))
  }

  /** The quantity picker's minus button: never below one, otherwise one less. */
  function QtyMinus(s: StoreState): (r: StoreState)
    ensures r.detailQty >= 1
    ensures s.detailQty <= 1 ==> r.detailQty == 1
    ensures s.detailQty >= 2 ==> r.detailQty == s.detailQty - 1
    ensures r == s.(detailQty := r.detailQty)
  {
    s.(detailQty := ProductDetail.QtyDown(s.detailQty))
  }

  /** The quantity picker's plus button. */
  function QtyPlus(s: StoreState): (r: StoreState)
    ensures r.detailQty == s.detailQty + 1
    ensures r == s.(detailQty := r.detailQty)
  {
    s.(detailQty := ProductDetail.QtyUp(s.detailQty))
  }

  /**
   `addToCartDetailed`: with no product selected nothing happens; otherwise
   one line carrying the selected product, quantity, option choices and
   uploaded images is appended after the existing lines.
   */
  function AddToCartDetailed(s: StoreState): (r: StoreState)
    ensures s.selectedProduct.None? ==> r == s
    ensures s.selectedProduct.Some? ==>
      && |r.cart| == |s.cart| + 1
      && r.cart[..|s.cart|] == s.cart
      && r.cart[|s.cart|] == CartItem(s.selectedProduct.value, s.detailQty, s.detailSelections, s.detailImages)
    ensures r == s.(cart := r.cart)
  {
    match s.selectedProduct
    case None => s
    case Some(p) =>
      s.(cart := Cart.AddLine(s.cart, CartItem(p, s.detailQty, s.detailSelections, s.detailImages)))
  }

  /** Adding to the bag raises the cart figures by exactly the new line's share. */
  lemma AddToCartFigures(s: StoreState)
    requires s.selectedProduct.Some?
    ensures Cart.SumSubtotals(AddToCartDetailed(s).cart) == Cart.SumSubtotals(s.cart) + s.selectedProduct.value.price * s.detailQty
    ensures Cart.SumQuantities(AddToCartDetailed(s).cart) == Cart.SumQuantities(s.cart) + s.detailQty
  {
    var item := CartItem(s.selectedProduct.value, s.detailQty, s.detailSelections, s.detailImages);
    Cart.AddLineFigures(s.cart, item);
  }

  /** The cart's remove button on line `idx`: exactly that line goes, the rest keep their order. */
  function RemoveFromCart(s: StoreState, idx: int): (r: StoreState)
    ensures 0 <= idx < |s.cart| ==> r.cart == s.cart[..idx] + s.cart[idx + 1..]
    ensures !(0 <= idx < |s.cart|) ==> r == s
    ensures r == s.(cart := r.cart)
  {
    s.(cart := Cart.RemoveLine(s.cart, idx))
  }

  /** Removing a line lowers the cart figures by exactly that line's share. */
  lemma RemoveFromCartFigures(s: StoreState, idx: int)
    requires 0 <= idx < |s.cart|
    ensures Cart.SumSubtotals(RemoveFromCart(s, idx).cart) == Cart.SumSubtotals(s.cart) - s.cart[idx].Subtotal()
    ensures Cart.SumQuantities(RemoveFromCart(s, idx).cart) == Cart.SumQuantities(s.cart) - s.cart[idx].quantity
  {
    Cart.RemoveLineFigures(s.cart, idx);
  }

  /**
   `toggleWishlist`: flips whether `id` is wished, as `Wishlist.Toggle` does,
   and touches nothing else.
   */
  function ToggleWishlist(s: StoreState, id: string): (r: StoreState)
    ensures r.wishlist == Wishlist.Toggle(s.wishlist, id)
    ensures id in r.wishlist <==> id !in s.wishlist
    ensures forall x :: x != id ==> (x in r.wishlist <==> x in s.wishlist)
    ensures id !in s.wishlist ==> r.wishlist == s.wishlist + [id]
    ensures id in s.wishlist ==> IsSubseq(r.wishlist, s.wishlist)
    ensures id in s.wishlist ==> forall x :: x != id ==> multiset(r.wishlist)[x] == multiset(s.wishlist)[x]
    ensures r == s.(wishlist := r.wishlist)
  {
    s.(wishlist := Wishlist.Toggle(s.wishlist, id))
  }

  /** A press of one of the checkout step buttons. */
  function PressStep(s: StoreState, b: Checkout.StepButton): (r: StoreState)
    ensures r.checkoutStep == Checkout.Press(s.checkoutStep, b)
    ensures Checkout.ValidStep(s.checkoutStep) ==> Checkout.ValidStep(r.checkoutStep)
    ensures r.checkoutStep == s.checkoutStep || Checkout.Move(s.checkoutStep, r.checkoutStep)
    ensures b == Checkout.EnterCheckout ==> r.checkoutStep == 1
    ensures r == s.(checkoutStep := r.checkoutStep)
  {
    s.(checkoutStep := Checkout.Press(s.checkoutStep, b))
  }

  /**
   `finalCheckout`: with an empty cart nothing happens. Otherwise a new
   order snapshotting the cart is put in front of the earlier orders, the
   cart is emptied, the checkout returns to step 1 and the new order is the
   one on display.
   */
  function FinalCheckout(s: StoreState, stamp: Stamp): (r: StoreState)
    ensures s.cart == [] ==> r == s
    ensures s.cart != [] ==>
      && |r.orders| == |s.orders| + 1
      && r.orders[1..] == s.orders
      && r.orders[0] == Checkout.NewOrder(s.cart, s.shippingFee, s.address, s.checkoutPayment, stamp)
      && r.orders[0].items == s.cart
      && r.orders[0].total == Cart.SumSubtotals(s.cart) + s.shippingFee
      && r.orders[0].shipping == s.shippingFee
      && r.orders[0].status == Confirmed
      && r.orders[0].paymentMethod == s.checkoutPayment
      && r.orders[0].customerName == s.address.name && r.orders[0].address == s.address.line
      && r.orders[0].phone == s.address.phone
      && r.orders[0].id == stamp.id && r.orders[0].orderNumber == stamp.orderNumber
      && r.cart == []
      && r.checkoutStep == 1
      && r.viewingOrder == Some(r.orders[0])
    ensures r == s.(orders := r.orders, cart := r.cart, checkoutStep := r.checkoutStep,
                    viewingOrder := r.viewingOrder)
  {
    if |s.cart| == 0 then s
    else
      var o := Checkout.NewOrder(s.cart, s.shippingFee, s.address, s.checkoutPayment, stamp);
      s.(orders := [o] + s.orders, cart := [], checkoutStep := 1, viewingOrder := Some(o))
  }

  /**
   `saveProduct` on the state: a refused save leaves everything as it was;
   an accepted one changes only the catalog.
   */
  function SaveProduct(s: StoreState, editing: Option<Product>, options: seq<ProductOption>)
    : (r: StoreState)
    ensures (editing.None? || editing.value.name == "") ==> r == s
    ensures editing.Some? && editing.value.name != "" ==>
      r.products == Catalog.SaveProduct(s.products, editing, options).value
    ensures r == s.(products := r.products)
  {
    match Catalog.SaveProduct(s.products, editing, options)
    case Success(ps) => s.(products := ps)
    case Failure(_) => s
  }

  /**
   The category Add button, reading the typed name: a non-empty new name is
   appended and the box cleared; otherwise nothing changes.
   */
  function AddCategory(s: StoreState): (r: StoreState)
    ensures s.newCategoryName != "" && s.newCategoryName !in s.categories ==>
      r.categories == s.categories + [s.newCategoryName] && r.newCategoryName == ""
    ensures s.newCategoryName == "" || s.newCategoryName in s.categories ==> r == s
    ensures r == s.(categories := r.categories, newCategoryName := r.newCategoryName)
  {
    if s.newCategoryName != "" && s.newCategoryName !in s.categories then
      s.(categories := Catalog.AddCategory(s.categories, s.newCategoryName), newCategoryName := "")
    else s
  }

  /**
   A category's delete button: the list becomes `Catalog.DeleteCategory`'s,
   so the name goes and the others stay, as often as before and in order;
   products filed under the name keep their category.
   */
  function DeleteCategory(s: StoreState, name: string): (r: StoreState)
    ensures r.categories == Catalog.DeleteCategory(s.categories, name)
    ensures name !in r.categories
    ensures forall c :: c != name ==> multiset(r.categories)[c] == multiset(s.categories)[c]
    ensures IsSubseq(r.categories, s.categories)
    ensures r.products == s.products
    ensures r == s.(categories := r.categories)
  {
    s.(categories := Catalog.DeleteCategory(s.categories, name))
  }

  /** The user actions the model covers. */
  datatype Action =
    | OpenProduct(product: Product)
    | PickOptionValue(optionName: string, value: string)
    | RemoveUploadedImage(imageIndex: int)
    | PressQtyMinus
    | PressQtyPlus
    | AddToBag
    | RemoveBagLine(index: int)
    | Heart(productId: string)
    | StepButton(button: Checkout.StepButton)
    | ChoosePayment(payment: string)
    | PlaceOrderButton(stamp: Stamp)
    | SaveProductForm(editing: Option<Product>, options: seq<ProductOption>)
    | TypeCategoryName(name: string)
    | AddCategoryButton
    | DeleteCategoryButton(category: string)
    | PickCategory(category: string)
    | TypeSearch(query: string)
    | EditAddress(newAddress: Address)

  /** The state after one user action. */
  function Apply(s: StoreState, a: Action): StoreState {
    match a
    case OpenProduct(p) => NavigateToProduct(s, p)
    case PickOptionValue(name, v) => PickOption(s, name, v)
    case RemoveUploadedImage(i) => RemoveDetailImage(s, i)
    case PressQtyMinus => QtyMinus(s)
    case PressQtyPlus => QtyPlus(s)
    case AddToBag => AddToCartDetailed(s)
    case RemoveBagLine(idx) => RemoveFromCart(s, idx)
    case Heart(id) => ToggleWishlist(s, id)
    case StepButton(b) => PressStep(s, b)
    case ChoosePayment(m) => s.(checkoutPayment := m)
    case PlaceOrderButton(stamp) => FinalCheckout(s, stamp)
    case SaveProductForm(editing, options) => SaveProduct(s, editing, options)
    case TypeCategoryName(name) => s.(newCategoryName := name)
    case AddCategoryButton => AddCategory(s)
    case DeleteCategoryButton(c) => DeleteCategory(s, c)
    case PickCategory(c) => s.(selectedCategory := c)
    case TypeSearch(q) => s.(searchQuery := q)
    case EditAddress(addr) => s.(address := addr)
  }

  /** Placing an order keeps every stored order's total equal to its goods plus shipping. */
  lemma FinalCheckoutKeepsOrdersConsistent(s: StoreState, stamp: Stamp)
    requires forall i :: 0 <= i < |s.orders| ==> Checkout.OrderConsistent(s.orders[i])
    ensures var r := FinalCheckout(s, stamp);
      forall i :: 0 <= i < |r.orders| ==> Checkout.OrderConsistent(r.orders[i])
  {
    var r := FinalCheckout(s, stamp);
    if s.cart != [] {
      forall i | 0 <= i < |r.orders|
        ensures Checkout.OrderConsistent(r.orders[i])
      {
        if i > 0 {
          assert r.orders[i] == s.orders[i - 1];
        }
      }
    }
  }

  /** Every action keeps the invariant. */
  lemma ApplyKeepsInv(s: StoreState, a: Action)
    requires Inv(s)
    ensures Inv(Apply(s, a))
  {
    match a
    case OpenProduct(p) =>
    case PickOptionValue(name, v) =>
    case RemoveUploadedImage(i) =>
    case PressQtyMinus =>
    case PressQtyPlus =>
    case AddToBag =>
      if s.selectedProduct.Some? {
        Cart.AddLineKeepsQuantities(s.cart, CartItem(s.selectedProduct.value, s.detailQty, s.detailSelections, s.detailImages));
      }
    case RemoveBagLine(idx) =>
      Cart.RemoveLineKeepsQuantities(s.cart, idx);
    case Heart(id) =>
      Wishlist.ToggleKeepsNoDups(s.wishlist, id);
    case StepButton(b) =>
    case ChoosePayment(m) =>
    case PlaceOrderButton(stamp) =>
      FinalCheckoutKeepsOrdersConsistent(s, stamp);
    case SaveProductForm(editing, options) =>
      Catalog.SaveProductKeepsUniqueIds(s.products, editing, options);
    case TypeCategoryName(name) =>
    case AddCategoryButton =>
      Catalog.AddCategoryKeepsNoDups(s.categories, s.newCategoryName);
    case DeleteCategoryButton(c) =>
      Catalog.DeleteCategoryKeepsNoDups(s.categories, c);
    case PickCategory(c) =>
    case TypeSearch(q) =>
    case EditAddress(addr) =>
  }

  /** The state after a run of actions. */
  function Run(s: StoreState, actions: seq<Action>): StoreState
    decreases |actions|
  {
    if |actions| == 0 then s else Run(Apply(s, actions[0]), actions[1..])
  }

  /** Every state reached by a run of actions from a state satisfying the invariant satisfies it too. */
  lemma {:induction false} RunKeepsInv(s: StoreState, actions: seq<Action>)
    requires Inv(s)
    ensures Inv(Run(s, actions))
    decreases |actions|
  {
    if |actions| > 0 {
      ApplyKeepsInv(s, actions[0]);
      RunKeepsInv(Apply(s, actions[0]), actions[1..]);
    }
  }

  /** Orders are never edited or removed: an action leaves them alone or puts one new order in front. */
  lemma OrdersOnlyGrowAtFront(s: StoreState, a: Action)
    ensures var r := Apply(s, a);
      r.orders == s.orders || (|r.orders| == |s.orders| + 1 && r.orders[1..] == s.orders)
  {
  }

  /** Orders placed earlier are still there, in order, after any run of actions. */
  lemma {:induction false} RunKeepsOldOrders(s: StoreState, actions: seq<Action>)
    ensures var r := Run(s, actions);
      |r.orders| >= |s.orders| && r.orders[|r.orders| - |s.orders|..] == s.orders
    decreases |actions|
  {
    if |actions| > 0 {
      var next := Apply(s, actions[0]);
      OrdersOnlyGrowAtFront(s, actions[0]);
      RunKeepsOldOrders(next, actions[1..]);
      var r := Run(next, actions[1..]);
      assert r.orders[|r.orders| - |next.orders|..] == next.orders;
      if next.orders != s.orders {
        assert next.orders[1..] == s.orders;
        assert r.orders[|r.orders| - |s.orders|..] == r.orders[|r.orders| - |next.orders|..][1..];
      }
    }
  }

  /** The checkout of the storefront's sample: 899 with shipping 29 is charged 928 and the bag is empty after. */
  lemma SampleCheckout(s: StoreState, stamp: Stamp, p: Product, options: map<string, string>)
    requires s.cart == [CartItem(p, 1, options, [])] && p.price == 899 && s.shippingFee == 29
    ensures FinalCheckout(s, stamp).orders[0].total == 928
    ensures FinalCheckout(s, stamp).orders[0].status == Confirmed
    ensures FinalCheckout(s, stamp).cart == []
  {
    assert s.cart[..0] == [];
    assert Cart.SumSubtotals(s.cart) == Cart.SumSubtotals([]) + s.cart[0].Subtotal();
  }
}

=== FILE: text.dfy ===
/**
 The two string operations the storefront search uses: `toLowerCase` and
 `includes`.
 */
module Text {

  /** Lower-cases one character; only the ASCII letters A-Z are mapped. */
  function LowerChar(c: char): char {
    if 'A' <= c <= 'Z' then (c as int + 32) as char else c
  }

  predicate IsUpper(c: char) {
    'A' <= c <= 'Z'
  }

  /** The lower-case alphabet, indexed by a capital's distance from 'A'. */
  const LowerAlphabet: string := "abcdefghijklmnopqrstuvwxyz"

  /**
   `s.toLowerCase()`: same length, each capital A-Z replaced by the letter
   at the same place in the lower-case alphabet, other characters kept.
   */
  function Lower(s: string): (r: string)
    ensures |r| == |s|
    ensures forall i :: 0 <= i < |s| && IsUpper(s[i]) ==> r[i] == LowerAlphabet[s[i] as int - 'A' as int]
    ensures forall i :: 0 <= i < |r| ==> !IsUpper(r[i])
    ensures forall i :: 0 <= i < |s| && !IsUpper(s[i]) ==> r[i] == s[i]
  {
    seq(|s|, i requires 0 <= i < |s| => LowerChar(s[i]))
  }

  /** Lower-casing twice is lower-casing once. */
  lemma LowerIdempotent(s: string)
    ensures Lower(Lower(s)) == Lower(s)
  {
    var l := Lower(s);
    assert forall i :: 0 <= i < |l| ==> Lower(l)[i] == l[i];
  }

  /** `hay.includes(needle)`: `needle` occurs somewhere in `hay` as a contiguous run. */
  function Contains(hay: string, needle: string): bool
    decreases |hay|
  {
    needle <= hay || (|hay| > 0 && Contains(hay[1..], needle))
  }

  /** `needle` sits in `hay` starting at position `i`. */
  predicate OccursAt(hay: string, needle: string, i: int) {
    0 <= i && i + |needle| <= |hay| && hay[i..i + |needle|] == needle
  }

  /** The searching definition agrees with "some window of `hay` equals `needle`". */
  lemma {:induction false} ContainsIff(hay: string, needle: string)
    ensures Contains(hay, needle) <==> exists i :: OccursAt(hay, needle, i)
    decreases |hay|
  {
    if |hay| > 0 {
      ContainsIff(hay[1..], needle);
      if needle <= hay {
        assert OccursAt(hay, needle, 0);
      } else if Contains(hay[1..], needle) {
        var i :| OccursAt(hay[1..], needle, i);
        assert hay[1..][i..i + |needle|] == hay[i + 1..i + 1 + |needle|];
        assert OccursAt(hay, needle, i + 1);
      }
      if exists i :: OccursAt(hay, needle, i) {
        var i :| OccursAt(hay, needle, i);
        if i == 0 {
          assert needle <= hay;
        } else {
          assert hay[1..][i - 1..i - 1 + |needle|] == hay[i..i + |needle|];
          assert OccursAt(hay[1..], needle, i - 1);
        }
      }
    } else if needle == [] {
      assert OccursAt(hay, needle, 0);
    }
  }

  /** Every string contains itself, and the empty string is contained in every string. */
  lemma ContainsSelfAndEmpty(s: string, hay: string)
    ensures Contains(s, s)
    ensures Contains(hay, "")
  {
  }
}

=== FILE: types.dfy ===
/**
 The records the storefront keeps in its state: catalog products with their
 variant options, cart lines, placed orders and the shipping address.
 Prices and quantities are whole numbers (rupees); the storefront's own
 numbers are JavaScript doubles, but every seeded price is integral.
 */
module Types {

  /** Stand-in for a nullable reference (`Product | null`). */
  datatype Option<+T> = None | Some(value: T)

  /** An operation that either yields a value or reports a user-visible notice. */
  datatype Result<+R, +E> = Success(value: R) | Failure(error: E)

  /** A variant axis of a product, e.g. "Size" with values "S", "M", "L". */
  datatype ProductOption = ProductOption(name: string, values: seq<string>)

  /** A catalog entry. A product without options is modelled with `options == []`. */
  datatype Product = Product(
    id: string,
    name: string,
    description: string,
    price: int,
    oldPrice: Option<int>,
    discountBadge: Option<string>,
    category: string,
    image: string,
    stock: int,
    featured: bool,
    options: seq<ProductOption>,
    allowCustomImages: bool)

  /** A line of the cart: a snapshot of the product at add time plus the buyer's choices. */
  datatype CartItem = CartItem(
    product: Product,
    quantity: int,
    selectedOptions: map<string, string>,
    uploadedImages: seq<string>)
  {
    /** What this line contributes to the cart total. */
    function Subtotal(): int {
      product.price * quantity
    }
  }

  /** The buyer's delivery details as shown on the checkout page. */
  datatype Address = Address(name: string, line: string, phone: string)

  /**
   The values an order takes from outside the state: a random id, a random
   order number and the locale-formatted date and time of placement.
   */
  datatype Stamp = Stamp(id: string, orderNumber: string, date: string, time: string)

  /** A placed order: a frozen copy of the cart and the amounts charged. */
  datatype Order = Order(
    id: string,
    orderNumber: string,
    customerName: string,
    items: seq<CartItem>,
    total: int,
    shipping: int,
    status: string,
    date: string,
    time: string,
    address: string,
    phone: string,
    paymentMethod: string)

  /** The status every newly placed order carries. */
  const Confirmed: string := "confirmed"

  /** The category filter value that shows the whole catalog. */
  const AllCategories: string := "All"
}

=== FILE: wishlist.dfy ===
/**
 The wishlist: an ordered list of product ids. The heart button on a
 product flips whether its id is on the list.
 */
module Wishlist {
  import opened Seqs

  /**
   `toggleWishlist`: an id already present is removed wherever it occurs;
   an absent id is appended once at the end.
   */
  function Toggle(wishlist: seq<string>, id: string): (r: seq<string>)
    ensures id in r <==> id !in wishlist
    ensures forall x :: x != id ==> (x in r <==> x in wishlist)
    ensures id !in wishlist ==> r == wishlist + [id]
    ensures id in wishlist ==> IsSubseq(r, wishlist) && |r| < |wishlist|
    ensures id in wishlist ==> forall x :: x != id ==> multiset(r)[x] == multiset(wishlist)[x]
  {
    if id in wishlist then Filter(wishlist, x => x != id) else wishlist + [id]
  }

  /** A wishlist without repeats keeps having none after a toggle. */
  lemma ToggleKeepsNoDups(wishlist: seq<string>, id: string)
    requires NoDups(wishlist)
    ensures NoDups(Toggle(wishlist, id))
  {
    if id in wishlist {
      FilterKeepsNoDups(wishlist, x => x != id);
    } else {
      var r := wishlist + [id];
      forall i, j | 0 <= i < j < |r|
        ensures r[i] != r[j]
      {
        if j == |wishlist| {
          assert r[i] == wishlist[i];
        } else {
          assert r[i] == wishlist[i] && r[j] == wishlist[j];
        }
      }
    }
  }

  /** Toggling the same id twice restores the membership of every id. */
  lemma ToggleTwiceMembership(wishlist: seq<string>, id: string)
    ensures forall x :: x in Toggle(Toggle(wishlist, id), id) <==> x in wishlist
  {
  }

  /** Hearting an id that was not wished and un-hearting it gives back the very same list. */
  lemma ToggleTwiceRestores(wishlist: seq<string>, id: string)
    requires id !in wishlist
    ensures Toggle(Toggle(wishlist, id), id) == wishlist
  {
    var f := (x: string) => x != id;
    FilterConcat(wishlist, [id], f);
    FilterAllPass(wishlist, f);
    assert Filter([id], f) == [];
  }
}
